=== FILE: README.md ===
# Unused-export and console-statement scripts, modelled in Dafny

The repository ships two maintenance scripts that run under `ts-node`:

- **no-unused-exports** adds every file matching a `--glob=` argument to a
  TypeScript project. For each exported declaration of each file, it asks
  whether any reference to the declaration lives in another file. Exported
  declarations for which references can be searched and that have no such
  reference are listed as a table of file / line / kind / name. With
  `--fix`, the `export` keyword is removed from each listed declaration
  whose export-bearing node can carry it. For a variable declaration that
  node is the variable statement two levels up. The other listed
  declarations stay exported but are still shown as removed.
- **no-console** visits every node of every matching file. It picks out
  the expression statements whose text starts with `console.` and lists
  them with their file, line and the text before the first `(`. With
  `--fix`, those statements are removed. Both scripts end with a summary
  message.

This project models the decision logic of both scripts as pure functions
and loop methods over plain data. The answers the TypeScript compiler API
would give are inputs here:

- the exported declarations of a file, grouped by name;
- the kind, start line and reference-findability of each declaration;
- the files holding each reference;
- the parent links of the syntax tree and which nodes can carry `export`;
- the sequence of nodes a traversal visits;
- the project's root directories.

Modules:

- `Optional` (`optional.dfy`): the optional value standing for the
  scripts' `undefined` and `-1` results.
- `JsString` (`js_string.dfy`): the JavaScript `indexOf`, `split`, `join`
  and `startsWith` semantics the scripts rely on. This includes the
  empty-separator case of `split`, and `join` undoing `split`.
- `Seqs` (`seqs.dfy`): flattening the rows that nested `forEach` loops push,
  in loop order.
- `Cli` (`cli.dfy`): argument parsing, the root directory path and the
  report path. Both scripts define these identically. It also holds the
  early-exit outcome shared by both runs.
- `UnusedExports` (`unused_exports.dfy`): the per-declaration classifier,
  the report rows in loop order, the export-stripping step and its gate,
  the summary, and the whole run.
- `NoConsole` (`no_console.dfy`): the console-statement rule, the label,
  the rows and removals of one file, the closing messages, and the whole
  run.

## Model

| member | source | states |
|---|---|---|
| JsString.IndexFrom | scripts/no-unused-exports.ts:116 | the index found is the first occurrence of the pattern at or after the start; no index means there is no occurrence at all |
| JsString.JoinSplitOn | scripts/no-unused-exports.ts:136-138 | joining the pieces of a split with the same separator gives back the original text |
| JsString.SplitOnPiecesFree | scripts/no-unused-exports.ts:136 | no piece produced by a split contains the separator |
| JsString.SplitOnFirst | scripts/no-console.ts:56 | the first piece of a split is the text before the first occurrence of the separator (no occurrence starts inside it, and one starts right after it), or the whole text when the separator does not occur |
| JsString.SplitOnCount | scripts/no-unused-exports.ts:116 | a split yields two or more pieces exactly when the separator occurs, and otherwise yields the text alone |
| Cli.FindGlobArg | scripts/no-unused-exports.ts:148 | the index found is the first argument that starts with `--glob=`; none found means no argument starts with it |
| Cli.GlobValue | scripts/no-unused-exports.ts:148 | the value of `--glob=` is the text behind the flag up to the next `=`: a prefix of it, free of `=`, ending at the end or at an `=` |
| Cli.ParseArgs | scripts/no-unused-exports.ts:146-150 | `fix` holds exactly when `--fix` is among the arguments; the glob is the value of the first `--glob=` argument, or empty when there is none |
| Cli.RootDirectoryPath | scripts/no-unused-exports.ts:132-143 | fails exactly when there is no root directory; otherwise the result is the first root directory's path cut before its last `/` (empty when it has no `/`) |
| Cli.RelativePathAsWrittenShape | scripts/no-unused-exports.ts:116 | with a non-empty root whose first occurrence in the path is at `i`, the report path as written is `.` plus the text behind that occurrence up to the next occurrence of the root (none starts before that point), or to the end of the path |
| Cli.FirstRootOccurrence | scripts/no-unused-exports.ts:116 | a root that occurs in the path has a first occurrence, and a root at the start of the path occurs first at index 0 |
| Cli.RelativePathAsWrittenMissingRoot | scripts/no-console.ts:40 | a path that does not contain the root is reported as `.undefined` |
| Cli.RelativePath | scripts/no-console.ts:40 | the report path starts with `.`, and for a path under the root, the root followed by the rest of the report path gives back the file path |
| Cli.RelativePathAgrees | scripts/no-unused-exports.ts:116 | when the root starts the path and does not occur again, the corrected and the as-written report paths agree |
| Cli.RelativePathAsWrittenAppCounterexample | scripts/no-unused-exports.ts:116 | a root directory `/app` gives the empty root path, the as-written report path of `/app/index.ts` is `.a`, and the corrected one is `./app/index.ts` |
| Cli.RelativePathAsWrittenRecurringRoot | scripts/no-unused-exports.ts:116 | a root `/a` that recurs in the file path `/a/b/a/c.ts` cuts the as-written report path to `./b`, while the corrected one is `./b/a/c.ts` |
| UnusedExports.HasExternalReference | scripts/no-unused-exports.ts:106-108 | a declaration has an external reference exactly when one of its references lies in a file other than the file being walked |
| UnusedExports.Classify | scripts/no-unused-exports.ts:104-124 | a declaration is reported exactly when it is reference-findable and every reference is in the file being walked; the row carries the report path, start line, kind and exported name |
| UnusedExports.Listed | scripts/no-unused-exports.ts:118-124 | a classified declaration is pushed as exactly one row, and a skipped one pushes nothing |
| UnusedExports.DeclsUnusedCount | scripts/no-unused-exports.ts:102-126 | the rows of a name's declarations number exactly the declarations that are findable and referenced only from the file being walked |
| UnusedExports.DeclsUnusedAppend | scripts/no-unused-exports.ts:102 | the rows of a name's declarations are the rows of a leading part followed by the rows of the rest, in declaration order |
| UnusedExports.GroupsUnusedAppend | scripts/no-unused-exports.ts:100 | the rows of a file are the rows of its leading export names followed by those of the remaining names |
| UnusedExports.DeclsUnusedMembership | scripts/no-unused-exports.ts:102-126 | a row belongs to a name's rows exactly when some declaration of that name classifies to it |
| UnusedExports.GroupsUnusedMembership | scripts/no-unused-exports.ts:100-127 | a row belongs to a file's rows exactly when some declaration of some exported name classifies to it |
| UnusedExports.ReportedAreUnused | scripts/no-unused-exports.ts:100-129 | every reported row is a findable declaration exported under the reported name, with no reference outside the file being walked, and with correct path, line and kind |
| UnusedExports.UnusedAreReported | scripts/no-unused-exports.ts:100-129 | every findable exported declaration whose references all lie in the file being walked is reported under its name |
| UnusedExports.PushUnusedDeclarations | scripts/no-unused-exports.ts:102-126 | the loop over one name's declarations pushes exactly the classified rows, in order |
| UnusedExports.GetUnusedExportDeclarations | scripts/no-unused-exports.ts:94-130 | the nested loop over a file's exported names and declarations returns exactly the file's classified rows, in order |
| UnusedExports.StripExport | scripts/no-unused-exports.ts:58-67 | stripping keeps the tree's nodes and links, and clears the export flag of exactly the export-bearing node (the grandparent of a variable declaration, otherwise the declaration itself), and only when that node exists and is exportable |
| UnusedExports.SameShapeSameBearer | scripts/no-unused-exports.ts:58-64 | trees with the same nodes and links agree on every declaration's export bearer and on whether it can be stripped |
| UnusedExports.SiblingBindingsLoseExport | scripts/no-unused-exports.ts:58-66 | stripping one binding of a variable statement also unexports every other binding of the same statement |
| UnusedExports.StripAllExported | scripts/no-unused-exports.ts:48-69 | after stripping a file's rows in order, a node is exported exactly when it was before and no row's export bearer was that node (while strippable) |
| UnusedExports.StripAllIdempotent | scripts/no-unused-exports.ts:58-67 | stripping the same rows a second time changes nothing |
| UnusedExports.SummaryOf | scripts/no-unused-exports.ts:75-91 | no rows means "no unused exports"; rows without `--fix` list them as removable; rows with `--fix` list them as removed |
| UnusedExports.RunNoUnusedExports | scripts/no-unused-exports.ts:14-92 | an empty glob stops the run before anything else, and so does a missing root directory; otherwise the run finishes, every file keeps its path, nodes and links and the export groups it was given (the answer queried before the fix), files are unchanged without `--fix`, and the summary is "none", "removable" or "removed" according to whether the report is empty and `--fix` is given |
| UnusedExports.GroupsUnusedCount | scripts/no-unused-exports.ts:100-129 | a file reports exactly as many rows as its exported names have declarations that are findable and referenced only from that file |
| UnusedExports.ProjectUnusedCount | scripts/no-unused-exports.ts:39-52 | the project's rows number exactly the declarations, over all files, that satisfy the reporting rule against the file that lists them |
| UnusedExports.RunReportsProjectUnused | scripts/no-unused-exports.ts:39-92 | a finished run's report is the project's rows, file by file, with the declaration dropped from each row; it has one entry per declaration satisfying the reporting rule, and the summary is chosen from that count and `--fix` |
| UnusedExports.FixUnexportsReported | scripts/no-unused-exports.ts:55-67 | with `--fix`, every reported declaration whose export bearer can carry the keyword is no longer exported in its file after the run |
| UnusedExports.FixStripsReported | scripts/no-unused-exports.ts:42-69 | with `--fix`, each file of a finished run is its input with exactly that file's reported rows stripped |
| UnusedExports.ProjectEntriesMembership | scripts/no-unused-exports.ts:42-52 | an entry is in the project's table exactly when it is the row of a declaration reported for one of the files |
| UnusedExports.RunEntriesMembership | scripts/no-unused-exports.ts:39-52 | an entry is in a finished run's report exactly when it is the row of a declaration reported for one of the files |
| UnusedExports.ProjectUnusedAppend | scripts/no-unused-exports.ts:42-52 | the project's rows are the rows of the leading files followed by those of the remaining files |
| NoConsole.StatementLabel | scripts/no-console.ts:56 | the label is the longest prefix of the statement text free of `(`: the whole text, or the text up to its first `(` |
| NoConsole.NodeRow | scripts/no-console.ts:45-57 | a visited node yields a row exactly when it is an expression statement starting with `console.`, and then yields exactly one row, carrying the report path, start line and label |
| NoConsole.KeptNode | scripts/no-console.ts:58-65 | in fix mode a visited node is kept exactly when it is not a console statement |
| NoConsole.MatchesMembership | scripts/no-console.ts:43-57 | a row is reported for a file exactly when some visited node is a console statement with that line and label |
| NoConsole.MatchesAppend | scripts/no-console.ts:43-57 | the rows of a traversal are the rows of its first part followed by those of the rest, in visiting order |
| NoConsole.UnmatchedExact | scripts/no-console.ts:58-65 | in fix mode the kept nodes are exactly the non-console nodes with their multiplicities, and rows plus kept nodes account for every visited node |
| NoConsole.ScanFile | scripts/no-console.ts:43-68 | the traversal loop pushes exactly the file's rows in visiting order; it keeps every node without `--fix` and removes exactly the console statements with it |
| NoConsole.ClosingMessages | scripts/no-console.ts:73-85 | the count message appears exactly when statements were found without `--fix`; the congratulation appears exactly when none were found or `--fix` is given, so a fix run that removed statements also congratulates; the removal message appears exactly when some were found with `--fix`, after the congratulation; so there are two messages after a fix run that removed statements and one otherwise |
| NoConsole.RunNoConsole | scripts/no-console.ts:9-86 | an empty glob stops the run, and so does a missing root directory; otherwise the run finishes, every file keeps its path, files are unchanged without `--fix` and keep exactly their non-console nodes with it, and the closing messages are those for the number of reported rows |
| NoConsole.ProjectMatchesAppend | scripts/no-console.ts:39-71 | the rows of two runs of files are the rows of the first followed by those of the second |
| NoConsole.ProjectMatchesSingle | scripts/no-console.ts:39-57 | the rows of a single file are the rows of its traversal |
| NoConsole.MatchesCount | scripts/no-console.ts:43-57 | a traversal reports exactly one row per console statement it visits |
| NoConsole.ProjectMatchesCount | scripts/no-console.ts:39-57 | a project reports exactly one row per console statement of its files |
| NoConsole.RunReportsProjectMatches | scripts/no-console.ts:39-85 | a finished run reports the project's rows file by file; their number is the number of console statements in the files, and the closing messages are those for that number |
| NoConsole.RunEntriesMembership | scripts/no-console.ts:39-57 | a row is in a finished run's report exactly when some file's traversal reports it |

## Left out

- The TypeScript compiler API is not modelled. This covers the reference
  search behind `findReferencesAsNodes`, `getExportedDeclarations`,
  re-exports and aliasing, kind names and start lines. Their answers are
  inputs to the model.
- File identity: a reference counts as external when its file's path
  differs from the path of the file being walked, the file whose exported
  declarations are listed. The script compares source-file objects, and
  the project holds one object per path. A re-exported declaration that
  lives in another file is therefore judged against the re-exporting file,
  as in the script.
- UnusedExports.RunNoUnusedExports: with `--fix`, only nodes of the listing
  file's own tree are stripped. The script strips a re-exported declaration
  in the file where it is declared. Each file's tree is a separate input,
  so the model cannot reach another file's nodes.
- UnusedExports.RunNoUnusedExports: the report ignores `--fix`. The script
  queries each file after the earlier files have been stripped, so with
  `--fix` a later file (an `export *` barrel, say) may no longer list a
  declaration that an earlier file lost its export on. The exported
  declarations are fixed inputs here, taken before any stripping.
- UnusedExports.GetUnusedExportDeclarations: the File column is the
  corrected `Cli.RelativePath`, not the expression the script evaluates.
  The two differ when the root path is empty or occurs again in the file
  path after its leading occurrence (see Findings). Where the root is
  missing from the path both give `.undefined`; where it occurs only later
  in the path the corrected path falls back to the as-written one. `Cli.RelativePathAgrees`
  shows they are equal when the root occurs once, at the start.
  `UnusedExports.ReportedAreUnused` and `UnusedExports.RunNoUnusedExports`
  inherit this.
- NoConsole.RunNoConsole: the File column is the corrected
  `Cli.RelativePath` as well, for the same reason.
  `NoConsole.RunEntriesMembership` and `NoConsole.RunReportsProjectMatches`
  inherit this.
- Reading `process.argv`, writing to the console (tables, warnings,
  "Checking ..." lines) and `process.exit` are left out. The early exits
  become the `Stopped` outcome. Both carry exit code 1.
- Saving files is left out, and so is the `async` callback that
  no-console passes to `forEach` without awaiting it. The model treats
  each file's edits as finished before the summary.
- No-console's traversal continuing after a node is removed is left out,
  including descendants removed along with a statement. The visited nodes
  are an input sequence, and fix mode drops the matched ones from it.
- Re-running the scan after a fix is left out, because the exported
  declarations are inputs. `UnusedExports.StripAllIdempotent` covers the
  tree side of running the fix twice.
- Strings are sequences of characters. JavaScript's UTF-16 code units are
  not distinguished.
- Classification is per declaration, as the code does it. When one name
  has several declarations, the name can be reported for some of them and
  not for others.

## Findings

| source | as written | input that shows it | evidently intended | confidence | as-written member | corrected member |
|---|---|---|---|---|---|---|
| scripts/no-unused-exports.ts:116 (same expression at scripts/no-console.ts:40) | the report path is `"."` plus the second piece of splitting the file path on the root directory path | the first root directory is `/app`, so the root path is empty. The file `/app/index.ts`, split on the empty string, gives single characters, and the report path is `.a` | the file path with the root path removed from its front: `./app/index.ts` | medium, not executed | Cli.RelativePathAsWrittenAppCounterexample | Cli.RelativePath |

The same expression also shortens the report path when the root path
occurs a second time inside the file path. For example, root `/a` and file
`/a/b/a/c.ts` give `./b` (`Cli.RelativePathAsWrittenRecurringRoot`). A path that does not contain the root at all is
reported as `.undefined`. The runs in `UnusedExports` and `NoConsole` use
the corrected `Cli.RelativePath`.

=== FILE: cli.dfy ===
/** The command-line and path helpers that both scripts define identically:
    parsing `--glob=` and `--fix`, deriving the root directory path from the
    project's first root directory, and turning a file path into the path
    shown in the report. */
module Cli {
  import opened Optional
  import opened JsString

  datatype Options = Options(glob: string, fix: bool)

  /** Why a run stops early; both reasons exit the process with code 1. */
  datatype Failure = MissingGlob | NoRootDirectory

  /** The result of a whole run: stopped early, or finished with a report. */
  datatype Outcome<+T> = Stopped(reason: Failure) | Finished(value: T)

  const GlobFlag: string := "--glob="
  const FixFlag: string := "--fix"

  /** `args.find(arg => arg.startsWith("--glob="))`, as an index from `from` on. */
  function FindGlobArg(args: seq<string>, from: nat): (r: Option<nat>)
    ensures r.Some? ==> from <= r.value < |args| && GlobFlag <= args[r.value]
    ensures r.Some? ==> forall j :: from <= j < r.value ==> !(GlobFlag <= args[j])
    ensures r.None? ==> forall j :: from <= j < |args| ==> !(GlobFlag <= args[j])
    decreases |args| - from
  {
    if from >= |args| then None
    else if GlobFlag <= args[from] then Some(from)
    else FindGlobArg(args, from + 1)
  }

  /** Splitting a `--glob=` argument on `=` gives `--glob` and then the
      pieces of the text behind the flag. */
  lemma GlobSplit(arg: string)
    requires GlobFlag <= arg
    ensures |Split(arg, "=")| >= 2
    ensures Split(arg, "=")[1] == SplitOn(arg[|GlobFlag|..], "=")[0]
  {
    OccursAtChar(arg, '=', 6);
    forall j: nat | j < 6
      ensures !OccursAt(arg, "=", j)
    {
      OccursAtChar(arg, '=', j);
      assert arg[j] == GlobFlag[j];
    }
    IndexOfIs(arg, "=", 6);
    assert Split(arg, "=") == [arg[..6]] + SplitOn(arg[7..], "=");
  }

  /** `arg.split("=")[1]` for an argument that starts with `--glob=`: the
      text behind the flag up to the next `=`. */
  function GlobValue(arg: string): (v: string)
    requires GlobFlag <= arg
    ensures v <= arg[|GlobFlag|..]
    ensures '=' !in v
    ensures v == arg[|GlobFlag|..] || arg[|GlobFlag| + |v|] == '='
  {
    GlobSplit(arg);
    GlobValueShape(arg);
    Split(arg, "=")[1]
  }

  lemma GlobValueShape(arg: string)
    requires GlobFlag <= arg
    ensures |Split(arg, "=")| >= 2
    ensures var v := Split(arg, "=")[1];
            && v <= arg[|GlobFlag|..] && '=' !in v
            && (v == arg[|GlobFlag|..] || arg[|GlobFlag| + |v|] == '=')
  {
    GlobSplit(arg);
    var rest := arg[|GlobFlag|..];
    SplitOnFirst(rest, "=");
    var v := Split(arg, "=")[1];
    ContainsChar(v, '=');
    if v != rest {
      OccursAtChar(rest, '=', |v|);
    }
  }

  /** The glob and fix options read from the arguments after the script name. */
  function ParseArgs(args: seq<string>): (o: Options)
    ensures o.fix <==> FixFlag in args
    ensures (forall j :: 0 <= j < |args| ==> !(GlobFlag <= args[j])) ==> o.glob == ""
    ensures forall k :: 0 <= k < |args| && GlobFlag <= args[k]
                          && (forall j :: 0 <= j < k ==> !(GlobFlag <= args[j]))
                        ==> o.glob == GlobValue(args[k])
  {
    var glob := match FindGlobArg(args, 0)
                case None => ""
                case Some(k) => GlobValue(args[k]);
    Options(glob, FixFlag in args)
  }

  /** `getRootDirectoryPath`: the path of the first root directory with its
      last `/`-separated segment dropped; `None` when there is no root
      directory (the script then exits with code 1). */
  function RootDirectoryPath(rootDirs: seq<string>): (r: Option<string>)
    ensures r.None? <==> rootDirs == []
    ensures r.Some? ==> r.value <= rootDirs[0]
    ensures r.Some? && '/' !in rootDirs[0] ==> r.value == ""
    ensures r.Some? && '/' in rootDirs[0] ==>
              |r.value| < |rootDirs[0]| && rootDirs[0][|r.value|] == '/' && '/' !in rootDirs[0][|r.value| + 1..]
  {
    if rootDirs == [] then None
    else
      var p := rootDirs[0];
      var parts := Split(p, "/");
      RootPathShape(p);
      Some(Join(parts[..|parts| - 1], "/"))
  }

  lemma RootPathShape(p: string)
    ensures var parts := SplitOn(p, "/");
            var r := Join(parts[..|parts| - 1], "/");
            && r <= p
            && ('/' !in p ==> r == "")
            && ('/' in p ==> |r| < |p| && p[|r|] == '/' && '/' !in p[|r| + 1..])
  {
    SplitOnCount(p, "/");
    ContainsChar(p, '/');
    if '/' in p {
      RootPathSlash(p);
    }
  }

  lemma RootPathSlash(p: string)
    requires |SplitOn(p, "/")| >= 2
    ensures var parts := SplitOn(p, "/");
            var r := Join(parts[..|parts| - 1], "/");
            && p == r + "/" + parts[|parts| - 1]
            && '/' !in parts[|parts| - 1]
  {
    var parts := SplitOn(p, "/");
    var last := parts[|parts| - 1];
    JoinLast(parts, "/");
    JoinSplitOn(p, "/");
    SplitOnPiecesFree(p, "/");
    ContainsChar(last, '/');
  }

  /** The report path as the scripts compute it:
      `"." + filePath.split(root)[1]`, where a missing second piece reads as
      the JavaScript text `undefined`. */
  function RelativePathAsWritten(path: string, root: string): string
  {
    var parts := Split(path, root);
    "." + (if |parts| > 1 then parts[1] else "undefined")
  }

  /** Where the first occurrence of a non-empty root in the path is at
      `i`, the as-written report path is "." followed by the text behind
      that occurrence, up to the next occurrence of the root or the end of
      the path. */
  lemma RelativePathAsWrittenShape(path: string, root: string, i: nat)
    requires root != "" && IndexOf(path, root) == Some(i)
    ensures i + |root| <= |path|
    ensures var rest := path[i + |root|..];
            var rel := RelativePathAsWritten(path, root);
            && |rel| >= 1 && rel[0] == '.'
            && rel[1..] <= rest
            && (forall j: nat :: j < |rel| - 1 ==> !OccursAt(rest, root, j))
            && (rel[1..] == rest || OccursAt(rest, root, |rel| - 1))
  {
    var rest := path[i + |root|..];
    AsWrittenAfterFirst(path, root, i);
    var rel := RelativePathAsWritten(path, root);
    assert rel[0] == '.' && rel[1..] == SplitOn(rest, root)[0];
    DotPieceShape(rel, rest, root);
  }

  lemma DotPieceShape(rel: string, rest: string, root: string)
    requires root != "" && |rel| >= 1 && rel[1..] == SplitOn(rest, root)[0]
    ensures rel[1..] <= rest
    ensures forall j: nat :: j < |rel| - 1 ==> !OccursAt(rest, root, j)
    ensures rel[1..] == rest || OccursAt(rest, root, |rel| - 1)
  {
    SplitOnFirst(rest, root);
  }

  /** A root that occurs in the path has a first occurrence, and a root at
      the start of the path occurs first there. */
  lemma FirstRootOccurrence(path: string, root: string)
    requires Contains(path, root)
    ensures IndexOf(path, root).Some?
    ensures root <= path ==> IndexOf(path, root) == Some(0)
  {
    var k: nat :| k <= |path| && OccursAt(path, root, k);
    assert IndexOf(path, root).Some?;
    if root <= path {
      assert OccursAt(path, root, 0);
      IndexOfIs(path, root, 0);
    }
  }

  /** The as-written report path is built from the piece behind the first
      occurrence of the root. */
  lemma AsWrittenAfterFirst(path: string, root: string, i: nat)
    requires root != "" && IndexOf(path, root) == Some(i)
    ensures i + |root| <= |path|
    ensures RelativePathAsWritten(path, root) == "." + SplitOn(path[i + |root|..], root)[0]
  {
    SplitOnAt(path, root, i);
  }

  /** A root that does not occur in the path yields `.undefined`. */
  lemma RelativePathAsWrittenMissingRoot(path: string, root: string)
    requires root != "" && !Contains(path, root)
    ensures RelativePathAsWritten(path, root) == ".undefined"
  {
    SplitOnCount(path, root);
  }

  /** The report path with the root prefix stripped, which is what the
      scripts mean by "a relative path to the source file". A path outside
      the root keeps the as-written result. */
  function RelativePath(path: string, root: string): (rel: string)
    ensures |rel| >= 1 && rel[0] == '.'
    ensures root <= path ==> root + rel[1..] == path
  {
    if root <= path then "." + path[|root|..] else RelativePathAsWritten(path, root)
  }

  /** Where the root occurs once, at the start of the path, the corrected
      report path agrees with the as-written one. */
  lemma RelativePathAgrees(path: string, root: string)
    requires root != "" && root <= path && !Contains(path[|root|..], root)
    ensures RelativePath(path, root) == RelativePathAsWritten(path, root)
  {
    var rest := path[|root|..];
    assert OccursAt(path, root, 0);
    IndexOfIs(path, root, 0);
    assert SplitOn(path, root) == [path[..0]] + SplitOn(rest, root);
    SplitOnCount(rest, root);
  }

  /** A project whose root directory sits directly under `/` (`/app`)
      derives the empty root path; splitting on the empty string then cuts
      the file path into characters and the as-written report path is `.a`
      instead of `./app/index.ts`. */
  lemma RelativePathAsWrittenAppCounterexample()
    ensures RootDirectoryPath(["/app"]) == Some("")
    ensures RelativePathAsWritten("/app/index.ts", "") == ".a"
    ensures RelativePath("/app/index.ts", "") == "./app/index.ts"
  {
    AppRootPath();
    AppRelativeAsWritten();
    AppRelativeCorrected();
  }

  /** A root that occurs again inside the file path cuts the as-written
      report path short: root `/a` and file `/a/b/a/c.ts` give `./b`, where
      the corrected path is `./b/a/c.ts`. */
  lemma RelativePathAsWrittenRecurringRoot()
    ensures RelativePathAsWritten("/a/b/a/c.ts", "/a") == "./b"
    ensures RelativePath("/a/b/a/c.ts", "/a") == "./b/a/c.ts"
  {
    RecurringAsWritten();
    RecurringCorrected();
  }

  lemma RecurringAsWritten()
    ensures RelativePathAsWritten("/a/b/a/c.ts", "/a") == "./b"
  {
    var path := "/a/b/a/c.ts";
    assert OccursAt(path, "/a", 0);
    IndexOfIs(path, "/a", 0);
    AsWrittenAfterFirst(path, "/a", 0);
    assert path[2..] == "/b/a/c.ts";
    RecurringFirstPiece();
  }

  lemma RecurringCorrected()
    ensures RelativePath("/a/b/a/c.ts", "/a") == "./b/a/c.ts"
  {
    var path := "/a/b/a/c.ts";
    assert "/a" <= path;
    assert path[|"/a"|..] == "/b/a/c.ts";
    assert "." + "/b/a/c.ts" == "./b/a/c.ts";
  }

  lemma RecurringFirstPiece()
    ensures SplitOn("/b/a/c.ts", "/a")[0] == "/b"
  {
    var rest := "/b/a/c.ts";
    assert OccursAt(rest, "/a", 2);
    forall j: nat | j < 2
      ensures !OccursAt(rest, "/a", j)
    {
      assert rest[1] == 'b';
    }
    IndexOfIs(rest, "/a", 2);
    SplitOnAt(rest, "/a", 2);
    assert rest[..2] == "/b";
  }

  lemma AppRelativeAsWritten()
    ensures RelativePathAsWritten("/app/index.ts", "") == ".a"
  {
    AppSplitEmpty();
  }

  lemma AppRelativeCorrected()
    ensures RelativePath("/app/index.ts", "") == "./app/index.ts"
  {
    var path := "/app/index.ts";
    assert "" <= path;
    assert path[|""|..] == path;
    assert "." + path == "./app/index.ts";
  }

  lemma AppRootPath()
    ensures RootDirectoryPath(["/app"]) == Some("")
  {
    var p := "/app";
    assert OccursAt(p, "/", 0);
    IndexOfIs(p, "/", 0);
    assert p[1..] == "app";
    assert !Contains("app", "/") by {
      ContainsChar("app", '/');
    }
    SplitOnCount("app", "/");
    assert SplitOn(p, "/") == ["", "app"];
  }

  lemma AppSplitEmpty()
    ensures Split("/app/index.ts", "")[1] == "a"
  {
  }
}

=== FILE: js_string.dfy ===
/** JavaScript string semantics used by both scripts: `indexOf`, `split`,
    `join` and `startsWith`, over strings as sequences of characters. */
module JsString {
  import opened Optional

  /** `pat` occurs in `text` starting at index `i`. */
  predicate OccursAt(text: string, pat: string, i: nat)
  {
    i + |pat| <= |text| && text[i..i + |pat|] == pat
  }

  /** `pat` occurs somewhere in `text` (JavaScript `text.includes(pat)`). */
  predicate Contains(text: string, pat: string)
  {
    exists i: nat :: i <= |text| && OccursAt(text, pat, i)
  }

  /** JavaScript `text.indexOf(pat, from)`, with `None` standing for -1.
      The scripts search only for non-empty patterns; for an empty pattern
      and `from > |text|` JavaScript answers `|text|`, where this answers
      `None`. */
  function IndexFrom(text: string, pat: string, from: nat): (r: Option<nat>)
    ensures r.Some? ==> from <= r.value && OccursAt(text, pat, r.value)
    ensures r.Some? ==> forall j: nat :: from <= j < r.value ==> !OccursAt(text, pat, j)
    ensures r.None? ==> forall j: nat :: from <= j ==> !OccursAt(text, pat, j)
    decreases |text| - from
  {
    if from + |pat| > |text| then None
    else if text[from..from + |pat|] == pat then Some(from)
    else IndexFrom(text, pat, from + 1)
  }

  function IndexOf(text: string, pat: string): Option<nat>
  {
    IndexFrom(text, pat, 0)
  }

  /** `text.split(sep)` for a non-empty separator: the pieces between the
      non-overlapping occurrences of `sep`, found left to right. */
  function SplitOn(s: string, sep: string): (parts: seq<string>)
    requires sep != ""
    ensures |parts| >= 1
    decreases |s|
  {
    match IndexOf(s, sep)
    case None => [s]
    case Some(i) => [s[..i]] + SplitOn(s[i + |sep|..], sep)
  }

  /** A split at a first occurrence: the text before it, then the split of
      the text behind it. */
  lemma SplitOnAt(s: string, sep: string, i: nat)
    requires sep != "" && IndexOf(s, sep) == Some(i)
    ensures i + |sep| <= |s|
    ensures SplitOn(s, sep) == [s[..i]] + SplitOn(s[i + |sep|..], sep)
  {
  }

  /** JavaScript `s.split(sep)`: an empty separator splits into single
      characters (and the empty string into no pieces at all). */
  function Split(s: string, sep: string): seq<string>
  {
    if sep == "" then seq(|s|, i requires 0 <= i < |s| => [s[i]])
    else SplitOn(s, sep)
  }

  /** JavaScript `parts.join(sep)`. */
  function Join(parts: seq<string>, sep: string): string
  {
    if |parts| == 0 then ""
    else if |parts| == 1 then parts[0]
    else parts[0] + sep + Join(parts[1..], sep)
  }

  /** A one-character pattern occurs exactly where that character is. */
  lemma OccursAtChar(text: string, c: char, j: nat)
    ensures OccursAt(text, [c], j) <==> j < |text| && text[j] == c
  {
    if j < |text| {
      assert text[j..j + 1] == [text[j]];
    }
  }

  lemma ContainsChar(text: string, c: char)
    ensures Contains(text, [c]) <==> c in text
  {
    if c in text {
      var j :| 0 <= j < |text| && text[j] == c;
      OccursAtChar(text, c, j);
    }
    if Contains(text, [c]) {
      var j: nat :| OccursAt(text, [c], j);
      OccursAtChar(text, c, j);
    }
  }

  /** An occurrence inside a prefix is an occurrence in the whole string. */
  lemma OccursInPrefix(s: string, pat: string, n: nat, j: nat)
    requires n <= |s| && OccursAt(s[..n], pat, j)
    ensures OccursAt(s, pat, j) && j + |pat| <= n
  {
    assert s[..n][j..j + |pat|] == s[j..j + |pat|];
  }

  /** The first occurrence is unique: a position that is an occurrence and
      has none before it is what `indexOf` returns. */
  lemma IndexOfIs(s: string, pat: string, i: nat)
    requires OccursAt(s, pat, i)
    requires forall j: nat :: j < i ==> !OccursAt(s, pat, j)
    ensures IndexOf(s, pat) == Some(i)
  {
  }

  /** `join` undoes `split`. */
  lemma {:induction false} JoinSplitOn(s: string, sep: string)
    requires sep != ""
    ensures Join(SplitOn(s, sep), sep) == s
    decreases |s|
  {
    match IndexOf(s, sep)
    case None =>
    case Some(i) =>
      var rest := s[i + |sep|..];
      var tail := SplitOn(rest, sep);
      JoinSplitOn(rest, sep);
      assert SplitOn(s, sep) == [s[..i]] + tail;
      assert ([s[..i]] + tail)[1..] == tail;
      assert Join(SplitOn(s, sep), sep) == s[..i] + sep + Join(tail, sep);
      assert s == s[..i] + s[i..i + |sep|] + rest;
  }

  /** No piece produced by `split` contains the separator. */
  lemma {:induction false} SplitOnPiecesFree(s: string, sep: string)
    requires sep != ""
    ensures forall k :: 0 <= k < |SplitOn(s, sep)| ==> !Contains(SplitOn(s, sep)[k], sep)
    decreases |s|
  {
    match IndexOf(s, sep)
    case None =>
    case Some(i) =>
      var rest := s[i + |sep|..];
      SplitOnPiecesFree(rest, sep);
      PrefixBeforeFirstFree(s, sep, i);
      assert SplitOn(s, sep) == [s[..i]] + SplitOn(rest, sep);
  }

  /** The text before the first occurrence holds no occurrence. */
  lemma PrefixBeforeFirstFree(s: string, sep: string, i: nat)
    requires sep != "" && i <= |s|
    requires forall j: nat :: j < i ==> !OccursAt(s, sep, j)
    ensures !Contains(s[..i], sep)
  {
    if Contains(s[..i], sep) {
      var j: nat :| OccursAt(s[..i], sep, j);
      OccursInPrefix(s, sep, i, j);
      assert false;
    }
  }

  /** The first piece of a split is the text before the first occurrence
      of the separator, or the whole text when there is none. */
  lemma SplitOnFirst(s: string, sep: string)
    requires sep != ""
    ensures SplitOn(s, sep)[0] <= s
    ensures !Contains(SplitOn(s, sep)[0], sep)
    ensures forall j: nat :: j < |SplitOn(s, sep)[0]| ==> !OccursAt(s, sep, j)
    ensures SplitOn(s, sep)[0] == s || OccursAt(s, sep, |SplitOn(s, sep)[0]|)
  {
    SplitOnPiecesFree(s, sep);
    match IndexOf(s, sep)
    case None =>
    case Some(i) =>
      assert SplitOn(s, sep)[0] == s[..i];
  }

  /** Splitting a text that holds the separator yields at least two pieces;
      one that does not yields the text itself. */
  lemma SplitOnCount(s: string, sep: string)
    requires sep != ""
    ensures Contains(s, sep) <==> |SplitOn(s, sep)| >= 2
    ensures !Contains(s, sep) ==> SplitOn(s, sep) == [s]
  {
    match IndexOf(s, sep)
    case None =>
    case Some(i) =>
  }

  /** Joining splits off the last piece behind the last separator. */
  lemma {:induction false} JoinLast(parts: seq<string>, sep: string)
    requires |parts| >= 2
    ensures Join(parts, sep) == Join(parts[..|parts| - 1], sep) + sep + parts[|parts| - 1]
  {
    if |parts| > 2 {
      JoinLast(parts[1..], sep);
      assert parts[1..][..|parts| - 2] == parts[1..|parts| - 1];
      assert parts[..|parts| - 1][1..] == parts[1..|parts| - 1];
    }
  }
}

=== FILE: no_console.dfy ===
/** The console-statement scanner: visit every node of every source file,
    report each expression statement whose text starts with `console.`,
    and with `--fix` remove it.

    The ts-morph traversal is input data here: per file, the nodes that
    `forEachDescendant` visits, in visit order, each with whether it is an
    expression statement, the text of its expression and its start line. */
module NoConsole {
  import opened JsString
  import opened Cli
  import opened Seqs

  /** A node as the visitor sees it. */
  datatype VisitedNode = VisitedNode(isExpressionStatement: bool, text: string, line: nat)

  /** A source file: its path and its nodes in visit order. */
  datatype ConsoleFile = ConsoleFile(path: string, nodes: seq<VisitedNode>)

  /** One row of the report table. */
  datatype ConsoleEntry = ConsoleEntry(file: string, line: nat, statement: string)

  const ConsolePrefix: string := "console."

  /** The match rule: an expression statement whose expression text starts
      with `console.`. */
  predicate IsConsoleStatement(n: VisitedNode)
  {
    n.isExpressionStatement && ConsolePrefix <= n.text
  }

  /** `expression.getText().split("(")[0]`: the longest prefix of the text
      without a `(`. */
  function StatementLabel(text: string): (head: string)
    ensures head <= text
    ensures '(' !in head
    ensures head == text || (|head| < |text| && text[|head|] == '(')
  {
    LabelShape(text);
    Split(text, "(")[0]
  }

  lemma LabelShape(text: string)
    ensures var head := SplitOn(text, "(")[0];
            && head <= text && '(' !in head
            && (head == text || (|head| < |text| && text[|head|] == '('))
  {
    var head := SplitOn(text, "(")[0];
    SplitOnFirst(text, "(");
    ContainsChar(head, '(');
    if head != text {
      OccursAtChar(text, '(', |head|);
    }
  }

  /** The row pushed for a matching node. */
  function NodeEntry(n: VisitedNode, rel: string): ConsoleEntry
  {
    ConsoleEntry(rel, n.line, StatementLabel(n.text))
  }

  /** The row a node makes the visitor push: one for a matching node,
      none otherwise. */
  function NodeRow(n: VisitedNode, rel: string): (row: seq<ConsoleEntry>)
    ensures forall e :: e in row <==> IsConsoleStatement(n) && e == NodeEntry(n, rel)
    ensures |row| == (if IsConsoleStatement(n) then 1 else 0)
  {
    if IsConsoleStatement(n) then [NodeEntry(n, rel)] else []
  }

  /** What fix mode keeps of a node: nothing for a matching node, the node
      itself otherwise. */
  function KeptNode(n: VisitedNode): (kept: seq<VisitedNode>)
    ensures forall x :: x in kept <==> !IsConsoleStatement(n) && x == n
  {
    if IsConsoleStatement(n) then [] else [n]
  }

  function NodeRows(nodes: seq<VisitedNode>, rel: string): (rows: seq<seq<ConsoleEntry>>)
    ensures |rows| == |nodes|
    ensures forall i :: 0 <= i < |nodes| ==> rows[i] == NodeRow(nodes[i], rel)
  {
    seq(|nodes|, i requires 0 <= i < |nodes| => NodeRow(nodes[i], rel))
  }

  function KeptNodes(nodes: seq<VisitedNode>): (kept: seq<seq<VisitedNode>>)
    ensures |kept| == |nodes|
    ensures forall i :: 0 <= i < |nodes| ==> kept[i] == KeptNode(nodes[i])
  {
    seq(|nodes|, i requires 0 <= i < |nodes| => KeptNode(nodes[i]))
  }

  /** The rows the visitor pushes for a run of nodes, in visit order. */
  function Matches(nodes: seq<VisitedNode>, rel: string): seq<ConsoleEntry>
  {
    Concat(NodeRows(nodes, rel))
  }

  /** The nodes fix mode leaves in place, in visit order. */
  function Unmatched(nodes: seq<VisitedNode>): seq<VisitedNode>
  {
    Concat(KeptNodes(nodes))
  }

  /** Visiting one more node appends its row and what fix mode keeps of it. */
  lemma VisitStep(nodes: seq<VisitedNode>, rel: string)
    requires nodes != []
    ensures Matches(nodes, rel) == Matches(nodes[..|nodes| - 1], rel) + NodeRow(nodes[|nodes| - 1], rel)
    ensures Unmatched(nodes) == Unmatched(nodes[..|nodes| - 1]) + KeptNode(nodes[|nodes| - 1])
  {
    var init := nodes[..|nodes| - 1];
    assert NodeRows(nodes, rel)[..|nodes| - 1] == NodeRows(init, rel);
    assert KeptNodes(nodes)[..|nodes| - 1] == KeptNodes(init);
  }

  /** A row is reported exactly for each matching node, with that node's
      line and label and the file's report path. */
  lemma MatchesMembership(nodes: seq<VisitedNode>, rel: string, e: ConsoleEntry)
    ensures e in Matches(nodes, rel) <==>
            exists i :: 0 <= i < |nodes| && IsConsoleStatement(nodes[i]) && e == NodeEntry(nodes[i], rel)
  {
    var rows := NodeRows(nodes, rel);
    ConcatMembership(rows, e);
    if exists i :: 0 <= i < |nodes| && IsConsoleStatement(nodes[i]) && e == NodeEntry(nodes[i], rel) {
      var i :| 0 <= i < |nodes| && IsConsoleStatement(nodes[i]) && e == NodeEntry(nodes[i], rel);
      assert e in rows[i];
    }
  }

  /** Rows come in visit order: the rows of two runs of nodes are the rows
      of the first followed by those of the second. */
  lemma MatchesAppend(a: seq<VisitedNode>, b: seq<VisitedNode>, rel: string)
    ensures Matches(a + b, rel) == Matches(a, rel) + Matches(b, rel)
  {
    var rows := NodeRows(a + b, rel);
    var rows' := NodeRows(a, rel) + NodeRows(b, rel);
    forall i | 0 <= i < |rows|
      ensures rows[i] == rows'[i]
    {
      if i < |a| {
        assert (a + b)[i] == a[i];
      } else {
        assert (a + b)[i] == b[i - |a|];
      }
    }
    assert rows == rows';
    ConcatAppend(NodeRows(a, rel), NodeRows(b, rel));
  }

  /** Fix mode removes exactly the matching nodes: a matching node is gone
      altogether, every other node keeps all its occurrences, and every
      node is either reported or kept. */
  lemma {:induction false} UnmatchedExact(nodes: seq<VisitedNode>, rel: string)
    ensures forall x :: multiset(Unmatched(nodes))[x] == if IsConsoleStatement(x) then 0 else multiset(nodes)[x]
    ensures |Matches(nodes, rel)| + |Unmatched(nodes)| == |nodes|
  {
    if nodes != [] {
      var init := nodes[..|nodes| - 1];
      var n := nodes[|nodes| - 1];
      LastSplit(nodes);
      UnmatchedExact(init, rel);
      VisitStep(nodes, rel);
    }
  }

  /** The visitor over one file: push a row for every matching node and,
      in fix mode, remove it. Returns the rows and the nodes left. */
  method ScanFile(f: ConsoleFile, rel: string, fix: bool) returns (rows: seq<ConsoleEntry>, kept: seq<VisitedNode>)
    ensures rows == Matches(f.nodes, rel)
    ensures !fix ==> kept == f.nodes
    ensures fix ==> kept == Unmatched(f.nodes)
  {
    ghost var allRows := NodeRows(f.nodes, rel);
    ghost var allKept := KeptNodes(f.nodes);
    rows := [];
    kept := [];
    var i := 0;
    while i < |f.nodes|
      invariant 0 <= i <= |f.nodes|
      invariant rows == Concat(allRows[..i])
      invariant fix ==> kept == Concat(allKept[..i])
      invariant !fix ==> kept == f.nodes[..i]
    {
      var n := f.nodes[i];
      ConcatStep(allRows, i);
      ConcatStep(allKept, i);
      TakeStep(f.nodes, i);
      rows := rows + NodeRow(n, rel);
      if fix {
        kept := kept + KeptNode(n);
      } else {
        kept := kept + [n];
      }
      i := i + 1;
    }
    assert allRows[..i] == allRows;
    assert allKept[..i] == allKept;
    assert f.nodes[..i] == f.nodes;
  }

  /** What the script prints at the end. */
  datatype ConsoleMessage =
    | FoundStatements(count: nat)
    | Congratulations(glob: string)
    | RemovedStatements(count: nat)

  /** The closing messages for `count` reported statements. The "Found"
      warning and its table appear only in report mode with something
      found; the congratulation appears in every other case, including a
      fix run that removed statements; the "Removed" table appears only in
      fix mode with something found, after the congratulation. */
  function ClosingMessages(count: nat, fix: bool, glob: string): (ms: seq<ConsoleMessage>)
    ensures FoundStatements(count) in ms <==> !fix && count > 0
    ensures Congratulations(glob) in ms <==> fix || count == 0
    ensures RemovedStatements(count) in ms <==> fix && count > 0
    ensures forall m | m in ms :: m in {FoundStatements(count), Congratulations(glob), RemovedStatements(count)}
    ensures |ms| == (if fix && count > 0 then 2 else 1)
    ensures !ms[0].RemovedStatements?
  {
    (if !fix && count > 0 then [FoundStatements(count)] else [Congratulations(glob)])
    + (if fix && count > 0 then [RemovedStatements(count)] else [])
  }

  datatype ConsoleReport = ConsoleReport(entries: seq<ConsoleEntry>, files: seq<ConsoleFile>, messages: seq<ConsoleMessage>)

  /** A file's rows, as a function of the file. */
  function FileRowsOf(root: string): ConsoleFile -> seq<ConsoleEntry>
  {
    (f: ConsoleFile) => Matches(f.nodes, RelativePath(f.path, root))
  }

  /** The rows of each file, in file order. */
  function FileMatches(files: seq<ConsoleFile>, root: string): (rows: seq<seq<ConsoleEntry>>)
    ensures |rows| == |files|
    ensures forall i :: 0 <= i < |files| ==> rows[i] == Matches(files[i].nodes, RelativePath(files[i].path, root))
  {
    Map(FileRowsOf(root), files)
  }

  /** The rows of a whole project, file by file. */
  function ProjectMatches(files: seq<ConsoleFile>, root: string): seq<ConsoleEntry>
  {
    Concat(FileMatches(files, root))
  }

  /** A file after the run: in fix mode its matching nodes are removed. */
  function Cleaned(f: ConsoleFile, fix: bool): ConsoleFile
  {
    if fix then f.(nodes := Unmatched(f.nodes)) else f
  }

  /** `main(glob, fix)` over a loaded project: its root directories and its
      source files. */
  function RunNoConsole(opts: Options, rootDirs: seq<string>, files: seq<ConsoleFile>): (o: Outcome<ConsoleReport>)
    ensures opts.glob == "" ==> o == Stopped(MissingGlob)
    ensures opts.glob != "" && rootDirs == [] ==> o == Stopped(NoRootDirectory)
    ensures o.Finished? <==> opts.glob != "" && rootDirs != []
    ensures o.Finished? ==> |o.value.files| == |files|
    ensures o.Finished? ==> forall i :: 0 <= i < |files| ==> o.value.files[i].path == files[i].path
    ensures o.Finished? && !opts.fix ==> o.value.files == files
    ensures o.Finished? && opts.fix ==>
              forall i :: 0 <= i < |files| ==> o.value.files[i].nodes == Unmatched(files[i].nodes)
    ensures o.Finished? ==> o.value.messages == ClosingMessages(|o.value.entries|, opts.fix, opts.glob)
  {
    if opts.glob == "" then Stopped(MissingGlob)
    else
      match RootDirectoryPath(rootDirs)
      case None => Stopped(NoRootDirectory)
      case Some(root) =>
        var entries := ProjectMatches(files, root);
        var files' := seq(|files|, i requires 0 <= i < |files| => Cleaned(files[i], opts.fix));
        Finished(ConsoleReport(entries, files', ClosingMessages(|entries|, opts.fix, opts.glob)))
  }

  /** A row is in the run's report exactly when it is the row of a
      matching node of one of the files. */
  lemma RunEntriesMembership(opts: Options, rootDirs: seq<string>, files: seq<ConsoleFile>, e: ConsoleEntry)
    requires opts.glob != "" && rootDirs != []
    ensures var o := RunNoConsole(opts, rootDirs, files);
            var root := RootDirectoryPath(rootDirs).value;
            && o.Finished?
            && (e in o.value.entries <==>
                exists i, k :: 0 <= i < |files| && 0 <= k < |files[i].nodes|
                               && IsConsoleStatement(files[i].nodes[k])
                               && e == NodeEntry(files[i].nodes[k], RelativePath(files[i].path, root)))
  {
    var root := RootDirectoryPath(rootDirs).value;
    var rows := FileMatches(files, root);
    ConcatMembership(rows, e);
    if e in Concat(rows) {
      var i :| 0 <= i < |rows| && e in rows[i];
      MatchesMembership(files[i].nodes, RelativePath(files[i].path, root), e);
    }
    if exists i, k :: 0 <= i < |files| && 0 <= k < |files[i].nodes|
                      && IsConsoleStatement(files[i].nodes[k])
                      && e == NodeEntry(files[i].nodes[k], RelativePath(files[i].path, root)) {
      var i, k :| 0 <= i < |files| && 0 <= k < |files[i].nodes|
                  && IsConsoleStatement(files[i].nodes[k])
                  && e == NodeEntry(files[i].nodes[k], RelativePath(files[i].path, root));
      MatchesMembership(files[i].nodes, RelativePath(files[i].path, root), e);
      assert e in rows[i];
    }
  }

  /** Rows come file by file: the rows of two runs of files are the rows
      of the first followed by those of the second. */
  lemma ProjectMatchesAppend(a: seq<ConsoleFile>, b: seq<ConsoleFile>, root: string)
    ensures ProjectMatches(a + b, root) == ProjectMatches(a, root) + ProjectMatches(b, root)
  {
    MapAppend(FileRowsOf(root), a, b);
    ConcatAppend(FileMatches(a, root), FileMatches(b, root));
  }

  /** The rows of a single file are the rows of its traversal. */
  lemma ProjectMatchesSingle(f: ConsoleFile, root: string)
    ensures ProjectMatches([f], root) == Matches(f.nodes, RelativePath(f.path, root))
  {
    assert FileMatches([f], root) == [Matches(f.nodes, RelativePath(f.path, root))];
    ConcatSingle(Matches(f.nodes, RelativePath(f.path, root)));
  }

  /** How many of the visited nodes are console statements. */
  function ConsoleCount(nodes: seq<VisitedNode>): nat
  {
    if nodes == [] then 0
    else ConsoleCount(nodes[..|nodes| - 1]) + (if IsConsoleStatement(nodes[|nodes| - 1]) then 1 else 0)
  }

  /** A traversal reports one row per console statement. */
  lemma {:induction false} MatchesCount(nodes: seq<VisitedNode>, rel: string)
    ensures |Matches(nodes, rel)| == ConsoleCount(nodes)
  {
    if nodes != [] {
      MatchesCount(nodes[..|nodes| - 1], rel);
      VisitStep(nodes, rel);
    }
  }

  /** How many console statements the files hold altogether. */
  function ConsoleTotal(files: seq<ConsoleFile>): nat
  {
    if files == [] then 0
    else ConsoleTotal(files[..|files| - 1]) + ConsoleCount(files[|files| - 1].nodes)
  }

  /** A project reports one row per console statement of its files. */
  lemma {:induction false} ProjectMatchesCount(files: seq<ConsoleFile>, root: string)
    ensures |ProjectMatches(files, root)| == ConsoleTotal(files)
  {
    if files != [] {
      var f := files[|files| - 1];
      ProjectMatchesCount(files[..|files| - 1], root);
      ProjectMatchesLast(files, root);
      MatchesCount(f.nodes, RelativePath(f.path, root));
    }
  }

  lemma ProjectMatchesLast(files: seq<ConsoleFile>, root: string)
    requires files != []
    ensures var f := files[|files| - 1];
            ProjectMatches(files, root) == ProjectMatches(files[..|files| - 1], root) + Matches(f.nodes, RelativePath(f.path, root))
  {
    var init := files[..|files| - 1];
    var f := files[|files| - 1];
    assert files == init + [f];
    ProjectMatchesAppend(init, [f], root);
    ProjectMatchesSingle(f, root);
  }

  /** A finished run reports the project's rows file by file, and the count
      its messages carry is the number of console statements in the files. */
  lemma RunReportsProjectMatches(opts: Options, rootDirs: seq<string>, files: seq<ConsoleFile>)
    requires opts.glob != "" && rootDirs != []
    ensures var o := RunNoConsole(opts, rootDirs, files);
            && o.Finished?
            && o.value.entries == ProjectMatches(files, RootDirectoryPath(rootDirs).value)
            && |o.value.entries| == ConsoleTotal(files)
            && o.value.messages == ClosingMessages(ConsoleTotal(files), opts.fix, opts.glob)
  {
    ProjectMatchesCount(files, RootDirectoryPath(rootDirs).value);
  }
}

=== FILE: optional.dfy ===
/** An optional value: `None` where the scripts get `undefined` or -1. */
module Optional {

  datatype Option<+T> = None | Some(value: T)
}

=== FILE: seqs.dfy ===
/** Flattening a sequence of sequences: the rows that nested loops push,
    in loop order. */
module Seqs {

  function Concat<T>(xss: seq<seq<T>>): seq<T>
  {
    if xss == [] then [] else Concat(xss[..|xss| - 1]) + xss[|xss| - 1]
  }

  lemma {:induction false} ConcatAppend<T>(a: seq<seq<T>>, b: seq<seq<T>>)
    ensures Concat(a + b) == Concat(a) + Concat(b)
    decreases |b|
  {
    if b == [] {
      assert a + b == a;
    } else {
      var b' := b[..|b| - 1];
      ConcatAppend(a, b');
      assert (a + b)[..|a + b| - 1] == a + b';
      assert (a + b)[|a + b| - 1] == b[|b| - 1];
    }
  }

  lemma {:induction false} ConcatMembership<T>(xss: seq<seq<T>>, x: T)
    ensures x in Concat(xss) <==> exists i :: 0 <= i < |xss| && x in xss[i]
  {
    if xss != [] {
      var init := xss[..|xss| - 1];
      ConcatMembership(init, x);
      if exists i :: 0 <= i < |init| && x in init[i] {
        var i :| 0 <= i < |init| && x in init[i];
        assert xss[i] == init[i];
      }
      if exists i :: 0 <= i < |xss| && x in xss[i] {
        var i :| 0 <= i < |xss| && x in xss[i];
        if i < |init| {
          assert init[i] == xss[i];
        }
      }
    }
  }

  lemma ConcatSingle<T>(xs: seq<T>)
    ensures Concat([xs]) == xs
  {
    assert [xs][..0] == [];
  }

  /** A non-empty sequence is its front followed by its last element. */
  lemma LastSplit<T>(s: seq<T>)
    requires s != []
    ensures s == s[..|s| - 1] + [s[|s| - 1]]
    ensures multiset(s) == multiset(s[..|s| - 1]) + multiset{s[|s| - 1]}
  {
    assert s == s[..|s| - 1] + [s[|s| - 1]];
  }

  /** The rows of one more loop iteration follow the rows so far. */
  lemma ConcatStep<T>(all: seq<seq<T>>, i: nat)
    requires i < |all|
    ensures Concat(all[..i + 1]) == Concat(all[..i]) + all[i]
  {
    assert all[..i + 1][..i] == all[..i];
  }

  /** A sequence that agrees with `p` on its front and with `q` behind it
      is `p + q`. */
  lemma PointwiseAppend<T>(r: seq<T>, p: seq<T>, q: seq<T>)
    requires |r| == |p| + |q|
    requires forall i :: 0 <= i < |p| ==> r[i] == p[i]
    requires forall i :: 0 <= i < |q| ==> r[|p| + i] == q[i]
    ensures r == p + q
  {
    forall i | 0 <= i < |r|
      ensures r[i] == (p + q)[i]
    {
      if i >= |p| {
        assert r[|p| + (i - |p|)] == q[i - |p|];
      }
    }
  }

  /** The image of each element under `f`, in order. */
  function Map<A, B>(f: A -> B, xs: seq<A>): (ys: seq<B>)
    ensures |ys| == |xs|
    ensures forall i :: 0 <= i < |xs| ==> ys[i] == f(xs[i])
  {
    seq(|xs|, i requires 0 <= i < |xs| => f(xs[i]))
  }

  lemma MapAppend<A, B>(f: A -> B, a: seq<A>, b: seq<A>)
    ensures Map(f, a + b) == Map(f, a) + Map(f, b)
  {
    var r := Map(f, a + b);
    forall i | 0 <= i < |a|
      ensures r[i] == Map(f, a)[i]
    {
      assert (a + b)[i] == a[i];
    }
    forall i | 0 <= i < |b|
      ensures r[|a| + i] == Map(f, b)[i]
    {
      assert (a + b)[|a| + i] == b[i];
    }
    PointwiseAppend(r, Map(f, a), Map(f, b));
  }

  /** Taking one more element of a sequence. */
  lemma TakeStep<T>(s: seq<T>, i: nat)
    requires i < |s|
    ensures s[..i + 1] == s[..i] + [s[i]]
  {
  }
}

=== FILE: unused_exports.dfy ===
/** The unused-export finder: for every exported declaration of every
    source file, report it when reference search applies to it and finds
    no reference outside the file being walked; with `--fix`, clear the export
    keyword on the node that carries it.

    The ts-morph queries are input data here: the exported names of a file
    with their declarations (`getExportedDeclarations`), per declaration its
    kind name, start line, whether it is reference-findable and the paths of
    the files its references live in, and per file a map of the syntax-tree
    nodes the export keyword can sit on. */
module UnusedExports {
  import opened Optional
  import opened JsString
  import opened Cli
  import opened Seqs

  type NodeId = nat

  /** A syntax-tree node as export stripping sees it: its parent, whether
      it can carry an export keyword, and whether it carries one. */
  datatype TreeNode = TreeNode(parent: Option<NodeId>, exportable: bool, exported: bool)

  type Tree = map<NodeId, TreeNode>

  /** One declaration listed under an exported name. */
  datatype Declaration = Declaration(
    node: NodeId,
    kind: string,
    line: nat,
    findable: bool,
    refFiles: seq<string>)

  /** An exported name with the declarations it binds (more than one for
      overloads), in declaration order. */
  datatype ExportGroup = ExportGroup(name: string, decls: seq<Declaration>)

  /** A source file: its path (which is its identity), its exported names
      in iteration order, and its syntax tree. */
  datatype SourceFile = SourceFile(path: string, exports: seq<ExportGroup>, tree: Tree)

  /** One row of the report table. */
  datatype Entry = Entry(file: string, line: nat, kind: string, name: string)

  /** A report row together with the declaration it describes. */
  datatype Unused = Unused(entry: Entry, decl: Declaration)

  const VariableDeclarationKind: string := "VariableDeclaration"

  /** `findReferencesAsNodes().some(ref => ref.getSourceFile() !== sourceFile)`. */
  function HasExternalReference(refFiles: seq<string>, home: string): (b: bool)
    ensures b <==> exists i :: 0 <= i < |refFiles| && refFiles[i] != home
  {
    if refFiles == [] then false
    else refFiles[|refFiles| - 1] != home || HasExternalReference(refFiles[..|refFiles| - 1], home)
  }

  /** The decision for one declaration listed under `name` in the file at
      `home`, whose report path is `rel`. */
  function Classify(name: string, d: Declaration, home: string, rel: string): (r: Option<Unused>)
    ensures r.Some? <==> d.findable && forall i :: 0 <= i < |d.refFiles| ==> d.refFiles[i] == home
    ensures r.Some? ==> r.value.decl == d
    ensures r.Some? ==> r.value.entry == Entry(rel, d.line, d.kind, name)
  {
    if d.findable && !HasExternalReference(d.refFiles, home) then
      Some(Unused(Entry(rel, d.line, d.kind, name), d))
    else
      None
  }

  /** The rows a decision pushes: none, or the one it yields. */
  function Listed(c: Option<Unused>): (rows: seq<Unused>)
    ensures |rows| == (if c.Some? then 1 else 0)
    ensures forall u :: u in rows <==> c == Some(u)
  {
    match c
    case None => []
    case Some(u) => [u]
  }

  /** The rows pushed for each declaration of one exported name. */
  function DeclRows(name: string, decls: seq<Declaration>, home: string, rel: string): (rows: seq<seq<Unused>>)
    ensures |rows| == |decls|
    ensures forall j :: 0 <= j < |decls| ==> rows[j] == Listed(Classify(name, decls[j], home, rel))
  {
    seq(|decls|, j requires 0 <= j < |decls| => Listed(Classify(name, decls[j], home, rel)))
  }

  /** The entries for the declarations of one exported name, in order. */
  function DeclsUnused(name: string, decls: seq<Declaration>, home: string, rel: string): seq<Unused>
  {
    Concat(DeclRows(name, decls, home, rel))
  }

  /** The rows pushed for each exported name of a file. */
  function GroupRows(groups: seq<ExportGroup>, home: string, rel: string): (rows: seq<seq<Unused>>)
    ensures |rows| == |groups|
    ensures forall g :: 0 <= g < |groups| ==> rows[g] == DeclsUnused(groups[g].name, groups[g].decls, home, rel)
  {
    seq(|groups|, g requires 0 <= g < |groups| => DeclsUnused(groups[g].name, groups[g].decls, home, rel))
  }

  /** The entries for a sequence of exported names, name by name. */
  function GroupsUnused(groups: seq<ExportGroup>, home: string, rel: string): seq<Unused>
  {
    Concat(GroupRows(groups, home, rel))
  }

  /** `getUnusedExportDeclarations(sourceFile, rootDirectoryPath)`, except
      that the File column is the corrected `Cli.RelativePath` rather than
      the split expression the script evaluates. */
  function FileUnused(f: SourceFile, root: string): seq<Unused>
  {
    GroupsUnused(f.exports, f.path, RelativePath(f.path, root))
  }

  /** Declaration order is kept: the entries of two runs of declarations
      are the entries of the first followed by those of the second. */
  lemma DeclsUnusedAppend(name: string, a: seq<Declaration>, b: seq<Declaration>, home: string, rel: string)
    ensures DeclsUnused(name, a + b, home, rel) == DeclsUnused(name, a, home, rel) + DeclsUnused(name, b, home, rel)
  {
    var rows := DeclRows(name, a + b, home, rel);
    var rows' := DeclRows(name, a, home, rel) + DeclRows(name, b, home, rel);
    forall j | 0 <= j < |rows|
      ensures rows[j] == rows'[j]
    {
      if j < |a| {
        assert (a + b)[j] == a[j];
      } else {
        assert (a + b)[j] == b[j - |a|];
      }
    }
    assert rows == rows';
    ConcatAppend(DeclRows(name, a, home, rel), DeclRows(name, b, home, rel));
  }

  /** Name order is kept: the entries of two runs of exported names are
      the entries of the first followed by those of the second. */
  lemma GroupsUnusedAppend(a: seq<ExportGroup>, b: seq<ExportGroup>, home: string, rel: string)
    ensures GroupsUnused(a + b, home, rel) == GroupsUnused(a, home, rel) + GroupsUnused(b, home, rel)
  {
    var rows := GroupRows(a + b, home, rel);
    var rows' := GroupRows(a, home, rel) + GroupRows(b, home, rel);
    forall g | 0 <= g < |rows|
      ensures rows[g] == rows'[g]
    {
      if g < |a| {
        assert (a + b)[g] == a[g];
      } else {
        assert (a + b)[g] == b[g - |a|];
      }
    }
    assert rows == rows';
    ConcatAppend(GroupRows(a, home, rel), GroupRows(b, home, rel));
  }

  /** The reporting rule on its own: findable, and every reference in the
      walked file. */
  predicate LocalOnly(d: Declaration, home: string)
  {
    d.findable && forall i :: 0 <= i < |d.refFiles| ==> d.refFiles[i] == home
  }

  /** How many of the declarations satisfy the reporting rule. */
  function LocalOnlyCount(decls: seq<Declaration>, home: string): nat
  {
    if decls == [] then 0
    else LocalOnlyCount(decls[..|decls| - 1], home) + (if LocalOnly(decls[|decls| - 1], home) then 1 else 0)
  }

  /** Each declaration that satisfies the rule yields exactly one row, and
      no other declaration yields any. */
  lemma {:induction false} DeclsUnusedCount(name: string, decls: seq<Declaration>, home: string, rel: string)
    ensures |DeclsUnused(name, decls, home, rel)| == LocalOnlyCount(decls, home)
  {
    if decls != [] {
      var init := decls[..|decls| - 1];
      var d := decls[|decls| - 1];
      DeclsUnusedCount(name, init, home, rel);
      assert decls == init + [d];
      DeclsUnusedAppend(name, init, [d], home, rel);
      assert DeclRows(name, [d], home, rel) == [Listed(Classify(name, d, home, rel))];
      ConcatSingle(Listed(Classify(name, d, home, rel)));
    }
  }

  /** An entry comes from a declaration of the name exactly when that
      declaration classifies as unused and yields it. */
  lemma DeclsUnusedMembership(name: string, decls: seq<Declaration>, home: string, rel: string, u: Unused)
    ensures u in DeclsUnused(name, decls, home, rel) <==>
            exists j :: 0 <= j < |decls| && Classify(name, decls[j], home, rel) == Some(u)
  {
    var rows := DeclRows(name, decls, home, rel);
    ConcatMembership(rows, u);
    if exists j :: 0 <= j < |decls| && Classify(name, decls[j], home, rel) == Some(u) {
      var j :| 0 <= j < |decls| && Classify(name, decls[j], home, rel) == Some(u);
      assert u in rows[j];
    }
  }

  /** An entry is in a file's report exactly when some declaration of some
      exported name classifies as unused and yields it. */
  lemma GroupsUnusedMembership(groups: seq<ExportGroup>, home: string, rel: string, u: Unused)
    ensures u in GroupsUnused(groups, home, rel) <==>
            exists g, j :: 0 <= g < |groups| && 0 <= j < |groups[g].decls|
                           && Classify(groups[g].name, groups[g].decls[j], home, rel) == Some(u)
  {
    var rows := GroupRows(groups, home, rel);
    ConcatMembership(rows, u);
    if u in GroupsUnused(groups, home, rel) {
      var g :| 0 <= g < |rows| && u in rows[g];
      DeclsUnusedMembership(groups[g].name, groups[g].decls, home, rel, u);
    }
    if exists g, j :: 0 <= g < |groups| && 0 <= j < |groups[g].decls|
                      && Classify(groups[g].name, groups[g].decls[j], home, rel) == Some(u) {
      var g, j :| 0 <= g < |groups| && 0 <= j < |groups[g].decls|
                  && Classify(groups[g].name, groups[g].decls[j], home, rel) == Some(u);
      DeclsUnusedMembership(groups[g].name, groups[g].decls, home, rel, u);
      assert u in rows[g];
    }
  }

  /** Every reported declaration is reference-findable and has all its
      references in the file being walked; its row carries its line and
      kind, the report path of that file, and a name it is exported under.
      So a declaration that is not findable, or that has a reference in
      a file other than the one being walked, is never reported. */
  lemma ReportedAreUnused(f: SourceFile, root: string)
    ensures forall u | u in FileUnused(f, root) ::
              && u.decl.findable
              && (forall i :: 0 <= i < |u.decl.refFiles| ==> u.decl.refFiles[i] == f.path)
              && u.entry.file == RelativePath(f.path, root)
              && u.entry.line == u.decl.line
              && u.entry.kind == u.decl.kind
              && (exists g :: 0 <= g < |f.exports| && f.exports[g].name == u.entry.name
                              && u.decl in f.exports[g].decls)
  {
    forall u | u in FileUnused(f, root)
      ensures u.decl.findable
      ensures forall i :: 0 <= i < |u.decl.refFiles| ==> u.decl.refFiles[i] == f.path
      ensures u.entry.file == RelativePath(f.path, root)
      ensures u.entry.line == u.decl.line && u.entry.kind == u.decl.kind
      ensures exists g :: 0 <= g < |f.exports| && f.exports[g].name == u.entry.name
                          && u.decl in f.exports[g].decls
    {
      GroupsUnusedMembership(f.exports, f.path, RelativePath(f.path, root), u);
      var g, j :| 0 <= g < |f.exports| && 0 <= j < |f.exports[g].decls|
                  && Classify(f.exports[g].name, f.exports[g].decls[j], f.path, RelativePath(f.path, root)) == Some(u);
      assert u.decl == f.exports[g].decls[j];
    }
  }

  /** Every findable declaration without a reference outside the file
      being walked is reported, with its own line, kind and the name it is listed under.
      Declarations are judged one by one, so each overload of a name can
      yield its own row. */
  lemma UnusedAreReported(f: SourceFile, root: string, g: nat, j: nat)
    requires g < |f.exports| && j < |f.exports[g].decls|
    requires f.exports[g].decls[j].findable
    requires forall i :: 0 <= i < |f.exports[g].decls[j].refFiles| ==> f.exports[g].decls[j].refFiles[i] == f.path
    ensures var d := f.exports[g].decls[j];
            Unused(Entry(RelativePath(f.path, root), d.line, d.kind, f.exports[g].name), d) in FileUnused(f, root)
  {
    var d := f.exports[g].decls[j];
    var u := Unused(Entry(RelativePath(f.path, root), d.line, d.kind, f.exports[g].name), d);
    GroupsUnusedMembership(f.exports, f.path, RelativePath(f.path, root), u);
  }

  /** The inner loop of `getUnusedExportDeclarations`: the declarations of
      one exported name, pushing a row for each one that classifies as
      unused. */
  method PushUnusedDeclarations(name: string, decls: seq<Declaration>, home: string, rel: string)
    returns (rows: seq<Unused>)
    ensures rows == DeclsUnused(name, decls, home, rel)
  {
    ghost var all := DeclRows(name, decls, home, rel);
    rows := [];
    var j := 0;
    while j < |decls|
      invariant 0 <= j <= |decls|
      invariant rows == Concat(all[..j])
    {
      var d := decls[j];
      if d.findable && !HasExternalReference(d.refFiles, home) {
        rows := rows + [Unused(Entry(rel, d.line, d.kind, name), d)];
      }
      assert all[..j + 1][..j] == all[..j];
      j := j + 1;
    }
    assert all[..j] == all;
  }

  /** The outer loop of `getUnusedExportDeclarations`: walk the exported
      names of the file in order. */
  method GetUnusedExportDeclarations(f: SourceFile, root: string) returns (unused: seq<Unused>)
    ensures unused == FileUnused(f, root)
  {
    var rel := RelativePath(f.path, root);
    ghost var all := GroupRows(f.exports, f.path, rel);
    unused := [];
    var g := 0;
    while g < |f.exports|
      invariant 0 <= g <= |f.exports|
      invariant unused == Concat(all[..g])
    {
      var rows := PushUnusedDeclarations(f.exports[g].name, f.exports[g].decls, f.path, rel);
      unused := unused + rows;
      assert all[..g + 1][..g] == all[..g];
      g := g + 1;
    }
    assert all[..g] == all;
  }

  // ---------------------------------------------------------------------
  // Export stripping (`--fix`)

  function ParentOf(tree: Tree, id: NodeId): Option<NodeId>
  {
    if id in tree then tree[id].parent else None
  }

  /** The node that carries the export keyword for `d`: for a variable
      declaration the grandparent (the variable statement around its
      declaration list), otherwise the declaration itself. `None` when the
      grandparent does not exist. */
  function ExportBearer(tree: Tree, d: Declaration): Option<NodeId>
  {
    if d.kind == VariableDeclarationKind then
      match ParentOf(tree, d.node)
      case None => None
      case Some(p) => ParentOf(tree, p)
    else
      Some(d.node)
  }

  /** The fix path changes something for `d`: its export bearer exists
      and can carry an export keyword (`Node.isExportable`). */
  predicate Strippable(tree: Tree, d: Declaration)
  {
    var b := ExportBearer(tree, d);
    b.Some? && b.value in tree && tree[b.value].exportable
  }

  /** `d` is exported as far as its export bearer says. */
  predicate IsExported(tree: Tree, d: Declaration)
  {
    var b := ExportBearer(tree, d);
    b.Some? && b.value in tree && tree[b.value].exported
  }

  /** Two trees with the same nodes, parents and exportability. */
  predicate SameShape(t1: Tree, t2: Tree)
  {
    && t1.Keys == t2.Keys
    && forall id | id in t1 :: t1[id].parent == t2[id].parent && t1[id].exportable == t2[id].exportable
  }

  /** The fix step for one reported declaration: `setIsExported(false)` on
      its export bearer when that is exportable. */
  function StripExport(tree: Tree, d: Declaration): (t: Tree)
    ensures SameShape(tree, t)
    ensures forall id | id in tree ::
              t[id].exported == (tree[id].exported && !(Strippable(tree, d) && ExportBearer(tree, d) == Some(id)))
  {
    if Strippable(tree, d) then
      var b := ExportBearer(tree, d).value;
      tree[b := tree[b].(exported := false)]
    else
      tree
  }

  /** Export bearers and strippability depend only on the shape of a tree. */
  lemma SameShapeSameBearer(t1: Tree, t2: Tree, d: Declaration)
    requires SameShape(t1, t2)
    ensures ExportBearer(t1, d) == ExportBearer(t2, d)
    ensures Strippable(t1, d) == Strippable(t2, d)
  {
  }

  /** Stripping a variable declaration unexports every binding of the same
      variable statement: a sibling binding loses its export as well. */
  lemma SiblingBindingsLoseExport(tree: Tree, d: Declaration, sibling: Declaration)
    requires d.kind == VariableDeclarationKind && sibling.kind == VariableDeclarationKind
    requires ParentOf(tree, d.node) == ParentOf(tree, sibling.node)
    requires Strippable(tree, d)
    ensures !IsExported(StripExport(tree, d), sibling)
  {
    SameShapeSameBearer(tree, StripExport(tree, d), sibling);
  }

  /** The fix steps for a sequence of reported declarations, in order. */
  function StripAll(tree: Tree, us: seq<Unused>): Tree
  {
    if us == [] then tree
    else StripExport(StripAll(tree, us[..|us| - 1]), us[|us| - 1].decl)
  }

  /** Node `id` is the exportable export bearer of one of the declarations. */
  predicate StrippedBy(tree: Tree, us: seq<Unused>, id: NodeId)
  {
    exists k :: 0 <= k < |us| && Strippable(tree, us[k].decl) && ExportBearer(tree, us[k].decl) == Some(id)
  }

  /** After the fix steps, a node is exported exactly when it was before
      and it is not the exportable export bearer of a reported declaration;
      nothing else about the tree changes. */
  lemma {:induction false} StripAllExported(tree: Tree, us: seq<Unused>)
    ensures SameShape(tree, StripAll(tree, us))
    ensures forall id | id in tree ::
              StripAll(tree, us)[id].exported == (tree[id].exported && !StrippedBy(tree, us, id))
  {
    if us != [] {
      var init := us[..|us| - 1];
      var d := us[|us| - 1].decl;
      var t := StripAll(tree, init);
      StripAllExported(tree, init);
      SameShapeSameBearer(tree, t, d);
      forall id | id in tree
        ensures StripAll(tree, us)[id].exported == (tree[id].exported && !StrippedBy(tree, us, id))
      {
        if StrippedBy(tree, init, id) {
          var k :| 0 <= k < |init| && Strippable(tree, init[k].decl) && ExportBearer(tree, init[k].decl) == Some(id);
          assert us[k] == init[k];
        }
        if StrippedBy(tree, us, id) && !(Strippable(tree, d) && ExportBearer(tree, d) == Some(id)) {
          var k :| 0 <= k < |us| && Strippable(tree, us[k].decl) && ExportBearer(tree, us[k].decl) == Some(id);
          assert k < |init|;
          assert init[k] == us[k];
        }
      }
    }
  }

  /** Running the fix steps a second time changes nothing. */
  lemma StripAllIdempotent(tree: Tree, us: seq<Unused>)
    ensures StripAll(StripAll(tree, us), us) == StripAll(tree, us)
  {
    var t1 := StripAll(tree, us);
    var t2 := StripAll(t1, us);
    StripAllExported(tree, us);
    StripAllExported(t1, us);
    forall id | id in tree
      ensures t2[id] == t1[id]
    {
      if StrippedBy(t1, us, id) {
        var k :| 0 <= k < |us| && Strippable(t1, us[k].decl) && ExportBearer(t1, us[k].decl) == Some(id);
        SameShapeSameBearer(tree, t1, us[k].decl);
      }
    }
  }

  // ---------------------------------------------------------------------
  // The whole run

  /** The closing message: nothing found, the report-only table, or the
      table of removed exports. */
  datatype Summary = NoUnusedExports | ListUnused(count: nat) | ListRemoved(count: nat)

  function SummaryOf(count: nat, fix: bool): (s: Summary)
    ensures s == NoUnusedExports <==> count == 0
    ensures s.ListUnused? <==> count > 0 && !fix
    ensures s.ListRemoved? <==> count > 0 && fix
    ensures !s.NoUnusedExports? ==> s.count == count
  {
    if count == 0 then NoUnusedExports
    else if !fix then ListUnused(count)
    else ListRemoved(count)
  }

  /** A file's rows, as a function of the file. */
  function FileRows(root: string): SourceFile -> seq<Unused>
  {
    f => FileUnused(f, root)
  }

  /** The rows of each file, in file order. */
  function PerFile(files: seq<SourceFile>, root: string): (rows: seq<seq<Unused>>)
    ensures |rows| == |files|
    ensures forall i :: 0 <= i < |files| ==> rows[i] == FileUnused(files[i], root)
  {
    Map(FileRows(root), files)
  }

  /** The rows of a whole project, file by file. */
  function ProjectUnused(files: seq<SourceFile>, root: string): seq<Unused>
  {
    Concat(PerFile(files, root))
  }

  function Entries(us: seq<Unused>): (es: seq<Entry>)
    ensures |es| == |us|
    ensures forall i :: 0 <= i < |us| ==> es[i] == us[i].entry
  {
    seq(|us|, i requires 0 <= i < |us| => us[i].entry)
  }

  /** A file after the run: in fix mode its reported declarations are
      stripped. */
  function Processed(f: SourceFile, root: string, fix: bool): SourceFile
  {
    if fix then f.(tree := StripAll(f.tree, FileUnused(f, root))) else f
  }

  datatype ExportsReport = ExportsReport(entries: seq<Entry>, files: seq<SourceFile>, summary: Summary)

  /** `main(glob, fix)` over a loaded project: its root directories and its
      source files. */
  function RunNoUnusedExports(opts: Options, rootDirs: seq<string>, files: seq<SourceFile>): (o: Outcome<ExportsReport>)
    ensures opts.glob == "" ==> o == Stopped(MissingGlob)
    ensures opts.glob != "" && rootDirs == [] ==> o == Stopped(NoRootDirectory)
    ensures o.Finished? <==> opts.glob != "" && rootDirs != []
    ensures o.Finished? ==> |o.value.files| == |files|
    ensures o.Finished? ==> forall i :: 0 <= i < |files| ==>
              && o.value.files[i].path == files[i].path
              && o.value.files[i].exports == files[i].exports
              && SameShape(files[i].tree, o.value.files[i].tree)
    ensures o.Finished? && !opts.fix ==> o.value.files == files
    ensures o.Finished? ==> (o.value.summary.NoUnusedExports? <==> o.value.entries == [])
    ensures o.Finished? ==> (o.value.summary.ListUnused? <==> o.value.entries != [] && !opts.fix)
    ensures o.Finished? ==> (o.value.summary.ListRemoved? <==> o.value.entries != [] && opts.fix)
  {
    if opts.glob == "" then Stopped(MissingGlob)
    else
      match RootDirectoryPath(rootDirs)
      case None => Stopped(NoRootDirectory)
      case Some(root) =>
        var entries := Entries(ProjectUnused(files, root));
        var files' := seq(|files|, i requires 0 <= i < |files| => Processed(files[i], root, opts.fix));
        assert forall i :: 0 <= i < |files| ==> SameShape(files[i].tree, files'[i].tree) by {
          forall i | 0 <= i < |files| {
            StripAllExported(files[i].tree, FileUnused(files[i], root));
          }
        }
        Finished(ExportsReport(entries, files', SummaryOf(|entries|, opts.fix)))
  }

  /** In fix mode, a node of a file's tree ends up exported exactly when it
      was exported and it is not the exportable export bearer of one of the
      declarations reported for that file. */
  lemma FixStripsReported(opts: Options, rootDirs: seq<string>, files: seq<SourceFile>, i: nat)
    requires opts.glob != "" && rootDirs != [] && opts.fix && i < |files|
    ensures var o := RunNoUnusedExports(opts, rootDirs, files);
            var root := RootDirectoryPath(rootDirs).value;
            && o.Finished?
            && forall id | id in files[i].tree ::
                 o.value.files[i].tree[id].exported ==
                   (files[i].tree[id].exported && !StrippedBy(files[i].tree, FileUnused(files[i], root), id))
  {
    var root := RootDirectoryPath(rootDirs).value;
    StripAllExported(files[i].tree, FileUnused(files[i], root));
  }

  /** A row is in the project's report table exactly when it is the row
      of a declaration reported for one of the files. */
  lemma ProjectEntriesMembership(files: seq<SourceFile>, root: string, e: Entry)
    ensures e in Entries(ProjectUnused(files, root)) <==>
            exists i, u :: 0 <= i < |files| && u in FileUnused(files[i], root) && u.entry == e
  {
    var rows := PerFile(files, root);
    var us := Concat(rows);
    if e in Entries(us) {
      var k :| 0 <= k < |us| && Entries(us)[k] == e;
      ConcatMembership(rows, us[k]);
      var i :| 0 <= i < |rows| && us[k] in rows[i];
    }
    if exists i, u :: 0 <= i < |files| && u in FileUnused(files[i], root) && u.entry == e {
      var i, u :| 0 <= i < |files| && u in FileUnused(files[i], root) && u.entry == e;
      ConcatMembership(rows, u);
      var k :| 0 <= k < |us| && us[k] == u;
      assert Entries(us)[k] == e;
    }
  }

  /** How many declarations of the exported names satisfy the reporting
      rule. */
  function GroupsLocalOnly(groups: seq<ExportGroup>, home: string): nat
  {
    if groups == [] then 0
    else GroupsLocalOnly(groups[..|groups| - 1], home) + LocalOnlyCount(groups[|groups| - 1].decls, home)
  }

  lemma GroupsUnusedLast(groups: seq<ExportGroup>, home: string, rel: string)
    requires groups != []
    ensures var g := groups[|groups| - 1];
            GroupsUnused(groups, home, rel) == GroupsUnused(groups[..|groups| - 1], home, rel) + DeclsUnused(g.name, g.decls, home, rel)
  {
    var init := groups[..|groups| - 1];
    var g := groups[|groups| - 1];
    assert groups == init + [g];
    GroupsUnusedAppend(init, [g], home, rel);
    assert GroupRows([g], home, rel) == [DeclsUnused(g.name, g.decls, home, rel)];
    ConcatSingle(DeclsUnused(g.name, g.decls, home, rel));
  }

  /** A file reports one row per declaration that satisfies the rule. */
  lemma {:induction false} GroupsUnusedCount(groups: seq<ExportGroup>, home: string, rel: string)
    ensures |GroupsUnused(groups, home, rel)| == GroupsLocalOnly(groups, home)
  {
    if groups != [] {
      var g := groups[|groups| - 1];
      GroupsUnusedCount(groups[..|groups| - 1], home, rel);
      GroupsUnusedLast(groups, home, rel);
      DeclsUnusedCount(g.name, g.decls, home, rel);
    }
  }

  /** How many declarations of all files satisfy the reporting rule, each
      judged against the file that lists it. */
  function ProjectLocalOnly(files: seq<SourceFile>): nat
  {
    if files == [] then 0
    else ProjectLocalOnly(files[..|files| - 1]) + GroupsLocalOnly(files[|files| - 1].exports, files[|files| - 1].path)
  }

  lemma ProjectUnusedLast(files: seq<SourceFile>, root: string)
    requires files != []
    ensures ProjectUnused(files, root) == ProjectUnused(files[..|files| - 1], root) + FileUnused(files[|files| - 1], root)
  {
    var init := files[..|files| - 1];
    var f := files[|files| - 1];
    assert files == init + [f];
    ProjectUnusedAppend(init, [f], root);
    assert PerFile([f], root) == [FileUnused(f, root)];
    ConcatSingle(FileUnused(f, root));
  }

  /** A project reports one row per declaration that satisfies the rule. */
  lemma {:induction false} ProjectUnusedCount(files: seq<SourceFile>, root: string)
    ensures |ProjectUnused(files, root)| == ProjectLocalOnly(files)
  {
    if files != [] {
      var f := files[|files| - 1];
      ProjectUnusedCount(files[..|files| - 1], root);
      ProjectUnusedLast(files, root);
      GroupsUnusedCount(f.exports, f.path, RelativePath(f.path, root));
    }
  }

  /** A finished run reports the project's rows file by file; their number,
      which the summary carries, is the number of declarations that satisfy
      the reporting rule. */
  lemma RunReportsProjectUnused(opts: Options, rootDirs: seq<string>, files: seq<SourceFile>)
    requires opts.glob != "" && rootDirs != []
    ensures var o := RunNoUnusedExports(opts, rootDirs, files);
            && o.Finished?
            && o.value.entries == Entries(ProjectUnused(files, RootDirectoryPath(rootDirs).value))
            && |o.value.entries| == ProjectLocalOnly(files)
            && o.value.summary == SummaryOf(ProjectLocalOnly(files), opts.fix)
  {
    ProjectUnusedCount(files, RootDirectoryPath(rootDirs).value);
  }

  /** In fix mode every reported declaration whose export bearer can carry
      an export keyword ends up unexported in its file. */
  lemma FixUnexportsReported(opts: Options, rootDirs: seq<string>, files: seq<SourceFile>, i: nat, u: Unused)
    requires opts.glob != "" && rootDirs != [] && opts.fix && i < |files|
    requires u in FileUnused(files[i], RootDirectoryPath(rootDirs).value)
    requires Strippable(files[i].tree, u.decl)
    ensures var o := RunNoUnusedExports(opts, rootDirs, files);
            && o.Finished?
            && !IsExported(o.value.files[i].tree, u.decl)
  {
    var root := RootDirectoryPath(rootDirs).value;
    var us := FileUnused(files[i], root);
    var tree := files[i].tree;
    var out := RunNoUnusedExports(opts, rootDirs, files).value.files[i].tree;
    FixStripsReported(opts, rootDirs, files, i);
    SameShapeSameBearer(tree, out, u.decl);
    var k :| 0 <= k < |us| && us[k] == u;
    assert StrippedBy(tree, us, ExportBearer(tree, u.decl).value);
  }

  /** A row is in a finished run's report exactly when it is the row of a
      declaration reported for one of the files. */
  lemma RunEntriesMembership(opts: Options, rootDirs: seq<string>, files: seq<SourceFile>, e: Entry)
    requires opts.glob != "" && rootDirs != []
    ensures var o := RunNoUnusedExports(opts, rootDirs, files);
            var root := RootDirectoryPath(rootDirs).value;
            && o.Finished?
            && (e in o.value.entries <==>
                exists i, u :: 0 <= i < |files| && u in FileUnused(files[i], root) && u.entry == e)
  {
    RunReportsProjectUnused(opts, rootDirs, files);
    ProjectEntriesMembership(files, RootDirectoryPath(rootDirs).value, e);
  }

  /** The rows of a project come file by file, in file order. */
  lemma ProjectUnusedAppend(a: seq<SourceFile>, b: seq<SourceFile>, root: string)
    ensures ProjectUnused(a + b, root) == ProjectUnused(a, root) + ProjectUnused(b, root)
  {
    PerFileAppend(a, b, root);
    ConcatAppend(PerFile(a, root), PerFile(b, root));
  }

  lemma PerFileAppend(a: seq<SourceFile>, b: seq<SourceFile>, root: string)
    ensures PerFile(a + b, root) == PerFile(a, root) + PerFile(b, root)
  {
    MapAppend(FileRows(root), a, b);
  }
}
